=== FILE: README.md ===
# Election back end: store and handlers

A Dafny model of the record store and request handlers of a small
election service. The store holds three collections: elections, candidates
and voters. Each is a map from id to record. Every handler that writes is
a pure function from the store (plus its request) to a `Step`: a reply
(`Ok(value)` or `Err(kind)`) together with the store afterwards. The read
handlers return their result without a store: `CandidatesOf` a map of
candidates, `GetVoter` an optional view of a voter, and the method
`LoginVoter` a `Result` holding the session fields.

The model covers these handlers:

- candidates: `addCandidate`, `removeCandidate` and `voteCandidate`;
- elections: `addElection`, `removeElection`, `updateElection` and
  `getCandidatesOfElection`;
- voters: `registerVoter`, `loginVoter` and `getVoter`.

It also covers the three document schemas (required fields and defaults),
the upload file-name derivation, and the registration checks.

Modules, leaf first:

- `Outcomes` holds `Option`, `Result` and the error kinds. It also has
  `Filled`, which models the JavaScript presence test `!field`.
- `Text` has ASCII lower-casing, ECMAScript `trim()`, the UTF-16 code-unit
  length that an ECMAScript `length` reports, and a one-character `split`
  with its inverse `Join`.
- `Uploads` has the size limit (1000000 bytes, checked as `size > limit`),
  the stored-file-name derivation, and the image host as a parameter.
- `Models` has the records, the schema validators, the create functions
  with their defaults, and the `Store`.
- `Candidates`, `Elections` and `Voters` hold the handlers of each
  controller.

Vote casting is modelled as two steps, as the handler runs it:

1. `CountVote` reads the count and writes count + 1 at once, outside any
   transaction.
2. `RecordParticipation` runs in one transaction. It appends the voter to
   the election's `voters` and the election to the voter's
   `votedElections`.

If step 2 fails, step 1 stays committed. Nothing checks whether the voter
has already voted in the election. Nothing checks whether the candidate
stands in it.

What is a parameter and not modelled:

- The image host is a function from the stored file name to an optional
  URL. It covers the file move and the hosting service.
- The uuid of a stored file name is a parameter.
- The id of a new record is a parameter. If the id is already taken, the
  store's duplicate-key rejection applies.
- Password hashing is a function `string -> string`. The salt is folded
  into it.
- The password comparison of login is a function `(string, string) -> bool`.

No handler writes the `blockchain*` fields: they are declared in the
schemas and only carried with their defaults. The vote path has no
already-voted check, and an election's `voters` list may hold an id more
than once.

## Model

| member | source | states |
|---|---|---|
| Models.NewCandidate | models/CandidateModel.js:3-19 | fullName, image and motto are required (non-empty), and so is the one election reference; the vote count defaults to 0 and the ledger hash list to empty; every created candidate passes the schema |
| Models.NewElection | models/electionModel.js:3-17 | title, thumbnail and description are required; `candidates` and `voters` start as empty id lists; `totalBlockchainTxs` defaults to 0, `blockchainEnabled` to true, `lastBlockchainSync` is absent |
| Models.NewVoter | models/voterModel.js:3-25 | fullName, email and password are required; an omitted admin flag means not admin; `votedElections` and the ledger vote history start empty |
| Models.NewBlockchainVote | models/voterModel.js:12-22 | a ledger vote entry requires both ids, the transaction hash and the voter hash; the created entry holds exactly the given ids, hashes, block number and gas used |
| Models.Without | controllers/candidateController.js:124 | pulling an id removes every occurrence of it from a list, keeps how often every other id occurs, and never lengthens the list |
| Models.WithoutAppend | controllers/candidateController.js:124 | pulling from a concatenation is pulling from each part, so the remaining ids keep their order |
| Models.WithoutSingle | controllers/candidateController.js:124 | a one-element list keeps its element exactly when it is not the id pulled |
| Models.WithoutAbsent | controllers/candidateController.js:124 | pulling an id the list does not hold gives the list back unchanged |
| Text.Split | controllers/electionsController.js:42 | splitting on a separator gives at least one piece, and no piece contains the separator |
| Text.JoinSplit | controllers/electionsController.js:42 | the pieces of a split, joined with the separator, give back the original string |
| Text.Trim | controllers/voterController.js:26 | the trimmed password is a slice of the input with no white space at either end, and only white space was removed before and after it |
| Text.TrimPadded | controllers/voterController.js:26 | white space added on both sides of a text is removed again by trimming |
| Text.ToLowerEqualIff | controllers/voterController.js:19-22 | two emails lower-case to the same string exactly when they differ only in letter case |
| Text.ToLowerIdempotent | controllers/voterController.js:19 | lower-casing an already lower-cased email changes nothing |
| Text.ToLowerIsLowerCase | controllers/voterController.js:19 | a lower-cased email holds no upper-case ASCII letter |
| Text.ToLower | controllers/voterController.js:19 | lower-casing keeps the length and acts character by character; with `LowerChar` an ASCII capital moves 32 code points up to its small letter, every other character is kept, and no upper-case letter is left |
| Text.Utf16Length | controllers/voterController.js:26 | the password length counts UTF-16 code units: at least one and at most two per character |
| Text.Utf16LengthBmp | controllers/voterController.js:26 | the code-unit length equals the character count exactly when no character lies outside the Basic Multilingual Plane |
| Text.Utf16LengthAppend | controllers/voterController.js:26 | the code-unit length of a concatenation is the sum of the parts' lengths |
| Text.TrimUtf16Shorter | controllers/voterController.js:26 | trimming never makes the password longer in code units |
| Text.AstralLength | controllers/voterController.js:26 | three emoji characters are three characters but six code units |
| Uploads.UploadName | controllers/electionsController.js:41-43 | the stored name is the text before the first `.`, then the uuid, then `.`, then the text after the last `.` |
| Uploads.UploadNameWithoutDot | controllers/candidateController.js:42-44 | a file name without `.` is stored as name ++ uuid ++ "." ++ name |
| Uploads.UploadNameDropsMiddle | controllers/electionsController.js:166-168 | middle pieces of a name with several dots are dropped: "a.b.c" becomes "a" ++ uuid ++ ".c" |
| Uploads.UploadNameSingleDot | controllers/electionsController.js:41-43 | a name "x.y" with dot-free parts is stored as x ++ uuid ++ "." ++ y |
| Candidates.AddCandidate | controllers/candidateController.js:14-85 | refuses, with no change, a non-admin, a missing name or motto, a request with no file at all (the read of `req.files` throws), a missing image, an image over 1000000 bytes and a failed upload, in that order; on success creates the candidate under the new id with count 0 and the requested election, and appends that id to the election's `candidates`; when a later step fails after the create, exactly the new candidate has been added and the elections are unchanged |
| Candidates.AddCandidateSizeLimit | controllers/candidateController.js:35-40 | an image of exactly 1000000 bytes passes the size check, one of 1000001 bytes is refused |
| Candidates.AddCandidateSucceeds | controllers/candidateController.js:61-77 | with every check passed and the election present, the reply is the new id, the count is 0, and the election lists the id once more than before |
| Candidates.AddCandidateDangling | controllers/candidateController.js:61-75 | the candidate is created before the election is looked up, so an unknown election leaves exactly the new candidate record added, naming no election, with every other candidate and all elections unchanged |
| Candidates.RemoveCandidate | controllers/candidateController.js:104-132 | a non-admin and an unknown id are refused with no change; on success the candidate is deleted and its own election becomes exactly the same election with the id pulled from `candidates` (every other entry kept, in order, by `Models.Without`); nothing else changes; a candidate whose election is gone is not deleted |
| Candidates.RemoveUnlistedCandidate | controllers/candidateController.js:121-126 | removing a candidate that its election does not list deletes the candidate and leaves every election exactly as it was |
| Candidates.CountVote | controllers/candidateController.js:142-149 | an unknown candidate fails with the store unchanged; otherwise exactly that candidate's count rises by one, and no other field or record changes |
| Candidates.RecordParticipation | controllers/candidateController.js:151-162 | succeeds exactly when the voter and election exist and pass the schema; then the voter id is appended to the election's `voters` and the election id to the voter's `votedElections`, and nothing else changes; any failure changes nothing |
| Candidates.VoteCandidate | controllers/candidateController.js:137-167 | an unknown candidate leaves the store unchanged; otherwise its count rises by one whatever happens next, its other fields and every other candidate stay as they were; success needs only an existing voter and election; on failure neither membership list changes |
| Candidates.VotePartialFailure | controllers/candidateController.js:145-162 | a missing voter or election after the count was written leaves the count incremented and the rest of the store as before |
| Candidates.VoteTwice | controllers/candidateController.js:137-163 | a repeat vote by the same voter in the same election is not refused: the count rises by two and both lists hold the id twice |
| Candidates.VoteUnguarded | controllers/candidateController.js:137-163 | a vote succeeds even when the voter already lists the election and the candidate stands in another election |
| Candidates.VoteKeepsInvariants | controllers/candidateController.js:143-149 | voting never lowers a count, so counts stay non-negative, and every record stays schema-valid |
| Candidates.AddCandidateKeepsInvariants | controllers/candidateController.js:61-77 | adding a candidate keeps counts non-negative, lowers none, and keeps every record schema-valid |
| Candidates.RemoveCandidateKeepsInvariants | controllers/candidateController.js:121-126 | removing a candidate keeps counts non-negative and records schema-valid |
| Elections.AddElection | controllers/electionsController.js:14-73 | refuses, creating nothing, a non-admin, a missing title or description, a request with no file at all, a missing thumbnail and a thumbnail over 1000000 bytes; on success creates exactly one election with the given title and description, the hosted thumbnail URL, empty `candidates` and `voters`, and the ledger fields at their schema defaults (0 transactions, no sync time, ledger on), and leaves every other record as it was |
| Elections.RemoveElection | controllers/electionsController.js:116-135 | a non-admin deletes nothing; an admin always gets success, even for an unknown id; the election and exactly the candidates naming it are deleted; other candidates, other elections and all voters are untouched |
| Elections.RemoveElectionKeepsStaleHistory | controllers/electionsController.js:128-130 | after the deletion a voter's `votedElections` still names the deleted election |
| Elections.RemoveElectionCandidates | controllers/electionsController.js:128-130 | after the deletion the election has no candidates, and every other election has exactly the candidates it had |
| Elections.UpdateElection | controllers/electionsController.js:140-199 | writes only title, description and thumbnail of that election, and only when a thumbnail is attached and hosted; without one nothing is written, with no reply when other files were sent and the caught error when none were; `candidates`, `voters` and the ledger fields never change; no other record changes |
| Elections.CandidatesOf | controllers/electionsController.js:90-98 | returns exactly the candidates whose own election reference is the id, each unchanged |
| Elections.AddedCandidateListed | controllers/candidateController.js:61-77 | after `addCandidate` succeeds, the listing of the candidate's election gains exactly that candidate, which it did not hold before, and every other election's listing stays the same |
| Elections.UpdateElectionKeepsInvariants | controllers/electionsController.js:186-190 | an update keeps every record schema-valid and leaves the candidates, and so every count, exactly as they were |
| Elections.RemoveElectionKeepsInvariants | controllers/electionsController.js:128-130 | the cascade delete keeps counts non-negative and records schema-valid |
| Elections.AddElectionKeepsInvariants | controllers/electionsController.js:61-66 | a created election is schema-valid, and the candidates, and so every count, are exactly as they were |
| Voters.ValidateRegistration | controllers/voterController.js:14-39 | the checks run in order: four fields present, lower-cased email unused, trimmed password at least 6 UTF-16 code units long, the two passwords equal; it passes exactly when all hold; the admin flag is true exactly for `admin@gmail.com` after lower-casing |
| Voters.RegisterVoter | controllers/voterController.js:11-54 | every refusal writes nothing; a missing field and a taken (lower-cased) email are refused; a success implies every check passed and adds exactly one voter record: the given full name, the lower-cased email, the hash of the untrimmed password, the admin flag set exactly for the admin email, and empty vote and ledger histories; elections, candidates and every existing voter stay as they were |
| Voters.CreateVoter | controllers/voterController.js:41-49 | a passed registration is stored under the unused id as a voter holding the hash of the password in place of the password, with an empty history; no existing record changes; an empty hash or a used id writes nothing |
| Voters.RegisterVoterSucceeds | controllers/voterController.js:11-50 | a registration passing every check, with a non-empty hash and an unused id, succeeds with that id |
| Voters.CaseVariantEmailTaken | controllers/voterController.js:19-24 | an email that differs from a stored lower-case email only in case is refused as taken |
| Voters.PaddedPasswordTooShort | controllers/voterController.js:26-30 | a password of seven characters with three non-blank ones ("  abc  ") is too short, because length is counted after trimming |
| Voters.AstralPasswordAccepted | controllers/voterController.js:26-30 | a password of three emoji characters is long enough, because its length is six code units |
| Voters.ShortBeforeMismatch | controllers/voterController.js:26-34 | a password under 6 code units that also differs from its repetition is refused as too short: the length check comes first |
| Voters.RegisterKeepsAccounts | controllers/voterController.js:19-49 | registration keeps all stored emails lower-case and distinct, and keeps the admin flag set exactly for the admin email |
| Voters.NoCaseVariantAccounts | controllers/voterController.js:19-24 | when emails are lower-case and distinct, no two voters' emails differ only in case |
| Voters.AtMostOneAdmin | controllers/voterController.js:36-39 | when the account invariant holds, at most one voter is an admin |
| Voters.VoteKeepsAccounts | controllers/candidateController.js:154-161 | voting changes no voter's email, password or admin flag, so the account invariant survives |
| Voters.LoginVoter | controllers/voterController.js:65-99 | a missing field is refused; an email that, lower-cased, belongs to no voter is refused; success returns a voter with that email whose stored hash matches the password, with its id, `votedElections` and admin flag; with distinct emails, a matching voter and password always log in |
| Voters.GetVoter | controllers/voterController.js:124-132 | finds exactly the stored voters; the result is the stored voter with the password field left out |
| Voters.GetVoterHidesPassword | controllers/voterController.js:127 | the read result is the same whatever the stored password is |

## Left out

- Image files: the move into the uploads folder and the hosting service are
  not modelled. A single function parameter from the stored name to an
  optional URL stands for both. An empty URL counts as a failed upload.
- Hashing, comparison and tokens: the hash, salt, password comparison and
  token signing are external. Hashing and comparison are parameters.
  Login returns the session fields without the token.
- Ids: ObjectIds are naturals, so the cast errors that malformed id strings
  raise are not modelled. A new record's id is a parameter.
- HTTP: status codes, message texts and the response bodies are dropped.
  The misplaced `403` argument and the undefined `next` in
  `updateElection` are dropped too. Every such path is an `Err` with the
  same store effect.
- Replies of `updateElection`: when the request carries files but none
  named `thumbnail`, the handler neither writes nor answers. The model
  replies `Err(NoReply)`.
- Requests without any file: `req.files` is then unset, so reading the
  image or thumbnail from it throws. In `addCandidate`, `addElection` and
  `updateElection` the catch answers with the error and nothing is
  written. The model replies `Err(Thrown)`. The form's `otherFiles` flag
  records whether files other than the expected one were sent.
- Replies of `addCandidate`: when the election is unknown or fails its
  schema, the handler throws inside the upload callback and never answers.
  The model replies `Err(NotFound)` or `Err(ValidationFailed)`, with the
  candidate already created.
- Concurrency: sessions, transaction isolation and the lost-update race
  between reading and writing the count are not modelled. The model is
  sequential, and each transaction is all-or-nothing.
- Ledger flow: nothing in the handlers writes `blockchainTxHashes`,
  `blockchainVotes`, `totalBlockchainTxs`, `lastBlockchainSync` or
  `blockchainEnabled`. These fields are only carried, with their schema
  defaults.
- Timestamps: the schema timestamps, the `timestamp` of a ledger vote
  entry, and the Date type of `lastBlockchainSync` are left out. The sync
  time is an optional natural.
- Numbers: `voteCount` is an unbounded integer. Floating-point rounding
  above 2^53 is not modelled.
- Text.ToLower: only ASCII letters are lower-cased. The full Unicode case
  mapping of `toLowerCase` is not modelled, so emails with non-ASCII
  capitals are compared more strictly than the code compares them.
- Voters.LoginVoter: when several voters share an email, the model may log
  in with any of them. The code takes the first one in the store's natural
  order.
- Candidates.RecordParticipation: the voter is saved twice, once before and
  once after its list grows. Both saves see the same required fields, so
  only one validation is modelled.
- Other read handlers: `getCandidate`, `getElections`, `getElection` and
  `getElectionVoters` are single lookups and are not modelled.

=== FILE: candidates.dfy ===
/** The candidate handlers: adding a candidate to an election, removing
    one, and casting a vote for one. */
module Candidates {
  import opened Outcomes
  import opened Uploads
  import opened Models

  /** The body and file part of an add-candidate request. `otherFiles`
      says whether files other than `image` were sent: a request with no
      file at all has no file part to read from. */
  datatype CandidateForm = CandidateForm(
    fullName: Option<string>,
    motto: Option<string>,
    currentElection: Option<Id>,
    image: Option<Upload>,
    otherFiles: bool)

  /** The checks an add-candidate request must pass before anything is
      uploaded or written. */
  predicate CandidateRequestPasses(isAdmin: bool, f: CandidateForm) {
    && isAdmin
    && Filled(f.fullName) && Filled(f.motto)
    && f.image.Some? && FitsLimit(f.image.value)
  }

  // ---------------------------------------------------------------- add

  /** Adds a candidate. The checks come in this order: admin, name and
      motto, image present, image size, hosted URL, schema, unused id. The
      candidate is committed on its own before the election is looked up,
      so an unknown or invalid election leaves the new candidate in place
      while the election's list is not extended. */
  function AddCandidate(s: Store, isAdmin: bool, f: CandidateForm, uuid: string, host: ImageHost, newId: Id): (r: Step<Id>)
    ensures !isAdmin ==> r == Step(Err(Forbidden), s)
    ensures isAdmin && !(Filled(f.fullName) && Filled(f.motto)) ==> r == Step(Err(MissingFields), s)
    ensures isAdmin && Filled(f.fullName) && Filled(f.motto) && f.image.None? && !f.otherFiles ==> r == Step(Err(Thrown), s)
    ensures isAdmin && Filled(f.fullName) && Filled(f.motto) && f.image.None? && f.otherFiles ==> r == Step(Err(MissingFile), s)
    ensures (isAdmin && Filled(f.fullName) && Filled(f.motto) && f.image.Some? && !FitsLimit(f.image.value))
              ==> r == Step(Err(FileTooLarge), s)
    ensures (CandidateRequestPasses(isAdmin, f) && !Hosted(host(UploadName(f.image.value.name, uuid))))
              ==> r == Step(Err(UploadFailed), s)
    ensures r.store.voters == s.voters
    ensures r.store == s || (r.store.candidates.Keys == s.candidates.Keys + {newId} && newId !in s.candidates)
    ensures r.reply.Err? && r.store != s ==>
              && CandidateRequestPasses(isAdmin, f) && f.currentElection.Some?
              && r.store.elections == s.elections
              && r.store.candidates == s.candidates[newId := Candidate(f.fullName.value, host(UploadName(f.image.value.name, uuid)).value,
                                                                      0, f.motto.value, f.currentElection.value, [])]
    ensures r.reply.Ok? ==>
              && CandidateRequestPasses(isAdmin, f)
              && f.currentElection.Some? && f.currentElection.value in s.elections
              && newId !in s.candidates && r.reply.value == newId
              && var e := f.currentElection.value;
              && var url := host(UploadName(f.image.value.name, uuid));
              && r.store.candidates == s.candidates[newId := Candidate(f.fullName.value, url.value, 0, f.motto.value, e, [])]
              && r.store.elections == s.elections[e := s.elections[e].(candidates := s.elections[e].candidates + [newId])]
  {
    if !isAdmin then Step(Err(Forbidden), s)
    else if !Filled(f.fullName) || !Filled(f.motto) then Step(Err(MissingFields), s)
    else if f.image.None? && !f.otherFiles then Step(Err(Thrown), s)
    else if f.image.None? then Step(Err(MissingFile), s)
    else if !FitsLimit(f.image.value) then Step(Err(FileTooLarge), s)
    else
      var url := host(UploadName(f.image.value.name, uuid));
      if !Hosted(url) then Step(Err(UploadFailed), s)
      else match NewCandidate(f.fullName.value, f.motto.value, url.value, f.currentElection)
        case Err(err) => Step(Err(err), s)
        case Ok(c) =>
          if newId in s.candidates then Step(Err(DuplicateKey), s)
          else
            var created := s.(candidates := s.candidates[newId := c]);
            if c.election !in s.elections then Step(Err(NotFound), created)
            else
              var prev := s.elections[c.election];
              var updated := prev.(candidates := prev.candidates + [newId]);
              if !ValidElection(updated) then Step(Err(ValidationFailed), created)
              else Step(Ok(newId), created.(elections := s.elections[c.election := updated]))
  }

  /** A file of exactly the size limit is accepted; one byte more is not. */
  lemma AddCandidateSizeLimit(s: Store, f: CandidateForm, uuid: string, host: ImageHost, newId: Id)
    requires Filled(f.fullName) && Filled(f.motto) && f.image.Some?
    ensures f.image.value.size == 1000000 ==> AddCandidate(s, true, f, uuid, host, newId).reply != Err(FileTooLarge)
    ensures f.image.value.size == 1000001 ==> AddCandidate(s, true, f, uuid, host, newId) == Step(Err(FileTooLarge), s)
  {
  }

  /** When every check passes and the election exists and is valid, the
      candidate is added under the new id with count 0, listed once more in its election. */
  lemma AddCandidateSucceeds(s: Store, f: CandidateForm, uuid: string, host: ImageHost, newId: Id)
    requires CandidateRequestPasses(true, f)
    requires Hosted(host(UploadName(f.image.value.name, uuid)))
    requires f.currentElection.Some? && f.currentElection.value in s.elections
    requires ValidElection(s.elections[f.currentElection.value])
    requires newId !in s.candidates
    ensures var r := AddCandidate(s, true, f, uuid, host, newId);
            && r.reply == Ok(newId)
            && r.store.candidates[newId].voteCount == 0
            && r.store.candidates[newId].election == f.currentElection.value
            && var e := f.currentElection.value;
            && multiset(r.store.elections[e].candidates)[newId] == multiset(s.elections[e].candidates)[newId] + 1
  {
  }

  /** An election id naming no election still creates the candidate (with
      a dangling election reference) and then fails. */
  lemma AddCandidateDangling(s: Store, f: CandidateForm, uuid: string, host: ImageHost, newId: Id)
    requires CandidateRequestPasses(true, f)
    requires Hosted(host(UploadName(f.image.value.name, uuid)))
    requires f.currentElection.Some? && f.currentElection.value !in s.elections
    requires newId !in s.candidates
    ensures var r := AddCandidate(s, true, f, uuid, host, newId);
            && r.reply == Err(NotFound)
            && newId in r.store.candidates
            && r.store.candidates == s.candidates[newId := Candidate(f.fullName.value, host(UploadName(f.image.value.name, uuid)).value,
                                                                    0, f.motto.value, f.currentElection.value, [])]
            && r.store.candidates[newId].election !in r.store.elections
            && r.store.elections == s.elections
  {
  }

  // ---------------------------------------------------------------- remove

  /** Removes a candidate and pulls its id from its election's list. The
      deletion and the list update share one transaction: if the election
      the candidate names is gone, nothing is committed. */
  function RemoveCandidate(s: Store, isAdmin: bool, id: Id): (r: Step<()>)
    ensures !isAdmin ==> r == Step(Err(Forbidden), s)
    ensures isAdmin && id !in s.candidates ==> r == Step(Err(NotFound), s)
    ensures r.reply.Err? ==> r.store == s
    ensures r.reply.Ok? <==>
              isAdmin && id in s.candidates && s.candidates[id].election in s.elections
              && ValidElection(s.elections[s.candidates[id].election])
    ensures r.reply.Ok? ==>
              && r.store.candidates.Keys == s.candidates.Keys - {id}
              && (forall c :: c in r.store.candidates ==> r.store.candidates[c] == s.candidates[c])
              && r.store.voters == s.voters
              && var e := s.candidates[id].election;
              && r.store.elections.Keys == s.elections.Keys
              && (forall e' :: e' in s.elections && e' != e ==> r.store.elections[e'] == s.elections[e'])
              && r.store.elections[e] == s.elections[e].(candidates := Without(s.elections[e].candidates, id))
  {
    if !isAdmin then Step(Err(Forbidden), s)
    else if id !in s.candidates then Step(Err(NotFound), s)
    else
      var e := s.candidates[id].election;
      if e !in s.elections then Step(Err(NotFound), s)
      else
        var updated := s.elections[e].(candidates := Without(s.elections[e].candidates, id));
        if !ValidElection(updated) then Step(Err(ValidationFailed), s)
        else Step(Ok(()), Store(s.elections[e := updated], s.candidates - {id}, s.voters))
  }

  /** Removing a candidate its election does not list (an entry already
      pulled, or one never appended) leaves that list exactly as it was. */
  lemma RemoveUnlistedCandidate(s: Store, id: Id)
    requires id in s.candidates && s.candidates[id].election in s.elections
    requires ValidElection(s.elections[s.candidates[id].election])
    requires id !in s.elections[s.candidates[id].election].candidates
    ensures var r := RemoveCandidate(s, true, id);
            && r.reply.Ok? && id !in r.store.candidates
            && r.store.elections == s.elections
  {
    var e := s.candidates[id].election;
    WithoutAbsent(s.elections[e].candidates, id);
  }

  // ---------------------------------------------------------------- vote

  /** First step of a vote: the candidate's count is read, raised by one
      and written back at once, outside any transaction. An unknown
      candidate fails when its count is read. */
  function CountVote(s: Store, candidateId: Id): (r: Step<()>)
    ensures candidateId !in s.candidates ==> r == Step(Err(NotFound), s)
    ensures candidateId in s.candidates ==>
              && r.reply.Ok?
              && r.store.elections == s.elections && r.store.voters == s.voters
              && r.store.candidates.Keys == s.candidates.Keys
              && r.store.candidates[candidateId].voteCount == s.candidates[candidateId].voteCount + 1
              && r.store.candidates[candidateId].(voteCount := 0) == s.candidates[candidateId].(voteCount := 0)
              && (forall c :: c in s.candidates && c != candidateId ==> r.store.candidates[c] == s.candidates[c])
  {
    if candidateId !in s.candidates then Step(Err(NotFound), s)
    else
      var c := s.candidates[candidateId];
      Step(Ok(()), s.(candidates := s.candidates[candidateId := c.(voteCount := c.voteCount + 1)]))
  }

  /** Second step of a vote, in one transaction: the voter is loaded and
      saved, the election loaded, each appended to the other's list, both
      saved. Any failure commits nothing. */
  function RecordParticipation(s: Store, voterId: Id, electionId: Id): (r: Step<()>)
    ensures voterId !in s.voters ==> r == Step(Err(NotFound), s)
    ensures (voterId in s.voters && ValidVoter(s.voters[voterId]) && electionId !in s.elections)
              ==> r == Step(Err(NotFound), s)
    ensures r.reply.Err? ==> r.store == s
    ensures r.reply.Ok? <==>
              voterId in s.voters && ValidVoter(s.voters[voterId])
              && electionId in s.elections && ValidElection(s.elections[electionId])
    ensures r.reply.Ok? ==>
              && r.store.candidates == s.candidates
              && r.store.elections == s.elections[electionId := s.elections[electionId].(voters := s.elections[electionId].voters + [voterId])]
              && r.store.voters == s.voters[voterId := s.voters[voterId].(votedElections := s.voters[voterId].votedElections + [electionId])]
  {
    if voterId !in s.voters then Step(Err(NotFound), s)
    else
      var v := s.voters[voterId];
      if !ValidVoter(v) then Step(Err(ValidationFailed), s)
      else if electionId !in s.elections then Step(Err(NotFound), s)
      else
        var e := s.elections[electionId];
        var e' := e.(voters := e.voters + [voterId]);
        // The voter saved again after the append has the same required
        // fields as the one saved first, so only the election can fail here.
        var v' := v.(votedElections := v.votedElections + [electionId]);
        if !ValidElection(e') then Step(Err(ValidationFailed), s)
        else Step(Ok(()), Store(s.elections[electionId := e'], s.candidates, s.voters[voterId := v']))
  }

  /** Casts a vote: the count is committed first, then the membership
      lists are updated. Neither step checks that the voter has not voted
      in this election already, nor that the candidate stands in it. */
  function VoteCandidate(s: Store, candidateId: Id, voterId: Id, electionId: Id): (r: Step<()>)
    ensures candidateId !in s.candidates ==> r == Step(Err(NotFound), s)
    ensures candidateId in s.candidates ==>
              && r.store.candidates.Keys == s.candidates.Keys
              && r.store.candidates[candidateId].voteCount == s.candidates[candidateId].voteCount + 1
              && r.store.candidates[candidateId].(voteCount := 0) == s.candidates[candidateId].(voteCount := 0)
              && (forall c :: c in s.candidates && c != candidateId ==> r.store.candidates[c] == s.candidates[c])
    ensures r.reply.Ok? <==>
              candidateId in s.candidates
              && voterId in s.voters && ValidVoter(s.voters[voterId])
              && electionId in s.elections && ValidElection(s.elections[electionId])
    ensures r.reply.Err? ==> r.store.elections == s.elections && r.store.voters == s.voters
    ensures r.reply.Ok? ==>
              && r.store.elections == s.elections[electionId := s.elections[electionId].(voters := s.elections[electionId].voters + [voterId])]
              && r.store.voters == s.voters[voterId := s.voters[voterId].(votedElections := s.voters[voterId].votedElections + [electionId])]
  {
    var counted := CountVote(s, candidateId);
    if counted.reply.Err? then counted
    else RecordParticipation(counted.store, voterId, electionId)
  }

  /** A voter or election that cannot be found leaves the vote counted but
      changes neither membership list. */
  lemma VotePartialFailure(s: Store, candidateId: Id, voterId: Id, electionId: Id)
    requires candidateId in s.candidates
    requires voterId !in s.voters || electionId !in s.elections
    ensures var r := VoteCandidate(s, candidateId, voterId, electionId);
            && r.reply.Err?
            && r.store == s.(candidates := s.candidates[candidateId := s.candidates[candidateId].(voteCount := s.candidates[candidateId].voteCount + 1)])
  {
  }

  /** The same voter voting twice in the same election is not refused: the
      count rises by two and both lists gain the id twice. */
  lemma VoteTwice(s: Store, candidateId: Id, voterId: Id, electionId: Id)
    requires candidateId in s.candidates
    requires voterId in s.voters && ValidVoter(s.voters[voterId])
    requires electionId in s.elections && ValidElection(s.elections[electionId])
    ensures var r1 := VoteCandidate(s, candidateId, voterId, electionId);
            var r2 := VoteCandidate(r1.store, candidateId, voterId, electionId);
            && r1.reply.Ok? && r2.reply.Ok?
            && r2.store.candidates[candidateId].voteCount == s.candidates[candidateId].voteCount + 2
            && r2.store.elections[electionId].voters == s.elections[electionId].voters + [voterId, voterId]
            && r2.store.voters[voterId].votedElections == s.voters[voterId].votedElections + [electionId, electionId]
  {
    var r1 := VoteCandidate(s, candidateId, voterId, electionId);
    assert r1.store.elections[electionId].voters == s.elections[electionId].voters + [voterId];
    assert r1.store.voters[voterId].votedElections == s.voters[voterId].votedElections + [electionId];
  }

  /** A vote succeeds even when the voter is already listed for the
      election and the candidate stands in a different election. */
  lemma VoteUnguarded(s: Store, candidateId: Id, voterId: Id, electionId: Id)
    requires candidateId in s.candidates && s.candidates[candidateId].election != electionId
    requires voterId in s.voters && ValidVoter(s.voters[voterId])
    requires electionId in s.voters[voterId].votedElections
    requires electionId in s.elections && ValidElection(s.elections[electionId])
    ensures VoteCandidate(s, candidateId, voterId, electionId).reply.Ok?
  {
  }

  // ---------------------------------------------------------------- invariants

  /** Adding a candidate keeps every record schema-valid and every count
      non-negative, and lowers no count. */
  lemma AddCandidateKeepsInvariants(s: Store, isAdmin: bool, f: CandidateForm, uuid: string, host: ImageHost, newId: Id)
    requires SchemaValid(s) && CountsNonNegative(s)
    ensures var t := AddCandidate(s, isAdmin, f, uuid, host, newId).store;
            SchemaValid(t) && CountsNonNegative(t) && CountsNotDecreased(s, t)
  {
  }

  lemma RemoveCandidateKeepsInvariants(s: Store, isAdmin: bool, id: Id)
    requires SchemaValid(s) && CountsNonNegative(s)
    ensures var t := RemoveCandidate(s, isAdmin, id).store;
            SchemaValid(t) && CountsNonNegative(t) && CountsNotDecreased(s, t)
  {
  }

  /** A vote never lowers a count and keeps the store schema-valid. */
  lemma VoteKeepsInvariants(s: Store, candidateId: Id, voterId: Id, electionId: Id)
    requires SchemaValid(s) && CountsNonNegative(s)
    ensures var t := VoteCandidate(s, candidateId, voterId, electionId).store;
            SchemaValid(t) && CountsNonNegative(t) && CountsNotDecreased(s, t)
  {
  }
}

=== FILE: elections.dfy ===
/** The election handlers: creating, deleting (with its candidates),
    editing, and listing the candidates of one election. */
module Elections {
  import opened Outcomes
  import opened Uploads
  import opened Models
  import Candidates

  /** The body and file part of an add- or update-election request.
      `otherFiles` says whether files other than `thumbnail` were sent: a
      request with no file at all has no file part to read from. */
  datatype ElectionForm = ElectionForm(
    title: Option<string>,
    description: Option<string>,
    thumbnail: Option<Upload>,
    otherFiles: bool)

  /** The checks an add-election request must pass before anything is
      uploaded or written. */
  predicate ElectionRequestPasses(isAdmin: bool, f: ElectionForm) {
    && isAdmin
    && Filled(f.title) && Filled(f.description)
    && f.thumbnail.Some? && FitsLimit(f.thumbnail.value)
  }

  // ---------------------------------------------------------------- add

  /** Creates an election from a title, a description and the hosted
      thumbnail. Checks, in order: admin, title and description, thumbnail
      present, thumbnail size, hosted URL, unused id. */
  function AddElection(s: Store, isAdmin: bool, f: ElectionForm, uuid: string, host: ImageHost, newId: Id): (r: Step<Id>)
    ensures !isAdmin ==> r == Step(Err(Forbidden), s)
    ensures isAdmin && !(Filled(f.title) && Filled(f.description)) ==> r == Step(Err(MissingFields), s)
    ensures isAdmin && Filled(f.title) && Filled(f.description) && f.thumbnail.None? && !f.otherFiles ==> r == Step(Err(Thrown), s)
    ensures isAdmin && Filled(f.title) && Filled(f.description) && f.thumbnail.None? && f.otherFiles ==> r == Step(Err(MissingFile), s)
    ensures (isAdmin && Filled(f.title) && Filled(f.description) && f.thumbnail.Some? && !FitsLimit(f.thumbnail.value))
              ==> r == Step(Err(FileTooLarge), s)
    ensures r.reply.Err? ==> r.store == s
    ensures r.reply.Ok? <==>
              ElectionRequestPasses(isAdmin, f) && Hosted(host(UploadName(f.thumbnail.value.name, uuid)))
              && newId !in s.elections
    ensures r.reply.Ok? ==>
              && r.reply.value == newId
              && r.store.candidates == s.candidates && r.store.voters == s.voters
              && r.store.elections.Keys == s.elections.Keys + {newId}
              && (forall e :: e in s.elections ==> r.store.elections[e] == s.elections[e])
              && r.store.elections[newId] == Election(f.title.value, host(UploadName(f.thumbnail.value.name, uuid)).value,
                                                      f.description.value, [], [], 0, None, true)
  {
    if !isAdmin then Step(Err(Forbidden), s)
    else if !Filled(f.title) || !Filled(f.description) then Step(Err(MissingFields), s)
    else if f.thumbnail.None? && !f.otherFiles then Step(Err(Thrown), s)
    else if f.thumbnail.None? then Step(Err(MissingFile), s)
    else if !FitsLimit(f.thumbnail.value) then Step(Err(FileTooLarge), s)
    else
      var url := host(UploadName(f.thumbnail.value.name, uuid));
      if !Hosted(url) then Step(Err(UploadFailed), s)
      else match NewElection(f.title.value, f.description.value, url.value)
        case Err(err) => Step(Err(err), s)
        case Ok(e) =>
          if newId in s.elections then Step(Err(DuplicateKey), s)
          else Step(Ok(newId), s.(elections := s.elections[newId := e]))
  }

  // ---------------------------------------------------------------- remove

  /** Deletes an election and every candidate naming it. The outcome of the
      delete is not inspected, so an unknown id still succeeds; voters are
      not touched, so their history may keep the deleted id. */
  function RemoveElection(s: Store, isAdmin: bool, id: Id): (r: Step<()>)
    ensures !isAdmin ==> r == Step(Err(Forbidden), s)
    ensures isAdmin ==> r.reply.Ok?
    ensures isAdmin ==>
              && r.store.elections.Keys == s.elections.Keys - {id}
              && (forall c :: c in r.store.candidates <==> c in s.candidates && s.candidates[c].election != id)
    ensures forall e :: e in r.store.elections ==> e in s.elections && r.store.elections[e] == s.elections[e]
    ensures forall c :: c in r.store.candidates ==> c in s.candidates && r.store.candidates[c] == s.candidates[c]
    ensures r.store.voters == s.voters
  {
    if !isAdmin then Step(Err(Forbidden), s)
    else
      var kept := map c | c in s.candidates && s.candidates[c].election != id :: s.candidates[c];
      Step(Ok(()), Store(s.elections - {id}, kept, s.voters))
  }

  /** Deleting an election leaves voters' histories naming it. */
  lemma RemoveElectionKeepsStaleHistory(s: Store, id: Id, voterId: Id)
    requires voterId in s.voters && id in s.voters[voterId].votedElections
    ensures var t := RemoveElection(s, true, id).store;
            id !in t.elections && voterId in t.voters && id in t.voters[voterId].votedElections
  {
  }

  // ---------------------------------------------------------------- update

  /** Edits an election. Only when a thumbnail is attached is anything
      written, and then only title, description and thumbnail. A request
      that carries files but none named `thumbnail` is neither written nor
      answered; one that carries no file at all throws when the file part
      is read, and the catch answers with the error. An unknown id writes
      nothing but still succeeds. */
  function UpdateElection(s: Store, isAdmin: bool, id: Id, f: ElectionForm, uuid: string, host: ImageHost): (r: Step<()>)
    ensures !isAdmin ==> r == Step(Err(Forbidden), s)
    ensures isAdmin && !(Filled(f.title) && Filled(f.description)) ==> r == Step(Err(MissingFields), s)
    ensures f.thumbnail.None? ==> r.store == s && r.reply.Err?
    ensures (isAdmin && Filled(f.title) && Filled(f.description) && f.thumbnail.None?)
              ==> r.reply == Err(if f.otherFiles then NoReply else Thrown)
    ensures r.reply.Err? ==> r.store == s
    ensures r.store.candidates == s.candidates && r.store.voters == s.voters
    ensures r.store.elections.Keys == s.elections.Keys
    ensures forall e :: e in s.elections && e != id ==> r.store.elections[e] == s.elections[e]
    ensures id in s.elections ==>
              && r.store.elections[id].candidates == s.elections[id].candidates
              && r.store.elections[id].voters == s.elections[id].voters
              && r.store.elections[id].totalBlockchainTxs == s.elections[id].totalBlockchainTxs
              && r.store.elections[id].lastBlockchainSync == s.elections[id].lastBlockchainSync
              && r.store.elections[id].blockchainEnabled == s.elections[id].blockchainEnabled
    ensures r.reply.Ok? <==>
              ElectionRequestPasses(isAdmin, f) && Hosted(host(UploadName(f.thumbnail.value.name, uuid)))
    ensures r.reply.Ok? && id in s.elections ==>
              && r.store.elections[id].title == f.title.value
              && r.store.elections[id].description == f.description.value
              && r.store.elections[id].thumbnail == host(UploadName(f.thumbnail.value.name, uuid)).value
  {
    if !isAdmin then Step(Err(Forbidden), s)
    else if !Filled(f.title) || !Filled(f.description) then Step(Err(MissingFields), s)
    else if f.thumbnail.None? && !f.otherFiles then Step(Err(Thrown), s)
    else if f.thumbnail.None? then Step(Err(NoReply), s)
    else if !FitsLimit(f.thumbnail.value) then Step(Err(FileTooLarge), s)
    else
      var url := host(UploadName(f.thumbnail.value.name, uuid));
      if !Hosted(url) then Step(Err(UploadFailed), s)
      else if id !in s.elections then Step(Ok(()), s)
      else
        var e := s.elections[id];
        var e' := e.(title := f.title.value, description := f.description.value, thumbnail := url.value);
        Step(Ok(()), s.(elections := s.elections[id := e']))
  }

  // ---------------------------------------------------------------- query

  /** The candidates whose election reference is `id`, by the candidate's
      own field rather than the election's list. */
  function CandidatesOf(s: Store, id: Id): (r: map<Id, Candidate>)
    ensures forall c :: c in r <==> c in s.candidates && s.candidates[c].election == id
    ensures forall c :: c in r ==> r[c] == s.candidates[c]
  {
    map c | c in s.candidates && s.candidates[c].election == id :: s.candidates[c]
  }

  /** After an election is deleted it has no candidates left, and every
      other election keeps exactly the candidates it had. */
  lemma RemoveElectionCandidates(s: Store, id: Id, other: Id)
    requires other != id
    ensures var t := RemoveElection(s, true, id).store;
            CandidatesOf(t, id) == map[] && CandidatesOf(t, other) == CandidatesOf(s, other)
  {
    var t := RemoveElection(s, true, id).store;
    assert CandidatesOf(t, id).Keys == {};
  }

  /** Adding a candidate lists it under its own election, and no other
      election's listing changes. */
  lemma AddedCandidateListed(s: Store, f: Candidates.CandidateForm, uuid: string, host: ImageHost, newId: Id)
    requires Candidates.CandidateRequestPasses(true, f)
    requires Hosted(host(UploadName(f.image.value.name, uuid)))
    requires f.currentElection.Some? && f.currentElection.value in s.elections
    requires ValidElection(s.elections[f.currentElection.value])
    requires newId !in s.candidates
    ensures var t := Candidates.AddCandidate(s, true, f, uuid, host, newId).store;
            var e := f.currentElection.value;
            && newId in CandidatesOf(t, e) && newId !in CandidatesOf(s, e)
            && CandidatesOf(t, e) == CandidatesOf(s, e)[newId := t.candidates[newId]]
            && (forall e' :: e' != e ==> CandidatesOf(t, e') == CandidatesOf(s, e'))
  {
    Candidates.AddCandidateSucceeds(s, f, uuid, host, newId);
  }

  // ---------------------------------------------------------------- invariants

  lemma AddElectionKeepsInvariants(s: Store, isAdmin: bool, f: ElectionForm, uuid: string, host: ImageHost, newId: Id)
    requires SchemaValid(s) && CountsNonNegative(s)
    ensures var t := AddElection(s, isAdmin, f, uuid, host, newId).store;
            SchemaValid(t) && CountsNonNegative(t) && t.candidates == s.candidates
  {
  }

  lemma RemoveElectionKeepsInvariants(s: Store, isAdmin: bool, id: Id)
    requires SchemaValid(s) && CountsNonNegative(s)
    ensures var t := RemoveElection(s, isAdmin, id).store;
            SchemaValid(t) && CountsNonNegative(t) && CountsNotDecreased(s, t)
  {
  }

  lemma UpdateElectionKeepsInvariants(s: Store, isAdmin: bool, id: Id, f: ElectionForm, uuid: string, host: ImageHost)
    requires SchemaValid(s) && CountsNonNegative(s)
    ensures var t := UpdateElection(s, isAdmin, id, f, uuid, host).store;
            SchemaValid(t) && CountsNonNegative(t) && t.candidates == s.candidates
  {
  }
}

=== FILE: models.dfy ===
/** The three document collections and their schemas: candidates, elections
    and voters, each a map from record id to record. A schema's `required`
    string fields reject a missing or empty value when a record is created
    or saved; its defaults fill the fields a create leaves out. */
module Models {
  import opened Outcomes

  /** A document id. */
  type Id = nat

  // ---------------------------------------------------------------- records

  /** A candidate standing in exactly one election. */
  datatype Candidate = Candidate(
    fullName: string,
    image: string,
    voteCount: int,
    motto: string,
    election: Id,
    blockchainTxHashes: seq<string>)

  /** An election; `candidates` and `voters` are ordered id lists that may
      hold the same id more than once. */
  datatype Election = Election(
    title: string,
    thumbnail: string,
    description: string,
    candidates: seq<Id>,
    voters: seq<Id>,
    totalBlockchainTxs: int,
    lastBlockchainSync: Option<nat>,
    blockchainEnabled: bool)

  /** One entry of a voter's ledger vote history. */
  datatype BlockchainVote = BlockchainVote(
    electionId: Id,
    candidateId: Id,
    transactionHash: string,
    blockNumber: Option<int>,
    voterHash: string,
    gasUsed: Option<int>)

  /** A registered voter; `password` holds the hash, never the plain text. */
  datatype Voter = Voter(
    fullName: string,
    email: string,
    password: string,
    votedElections: seq<Id>,
    isAdmin: bool,
    blockchainVotes: seq<BlockchainVote>)

  // ---------------------------------------------------------------- schemas

  predicate ValidCandidate(c: Candidate) {
    c.fullName != "" && c.image != "" && c.motto != ""
  }

  predicate ValidElection(e: Election) {
    e.title != "" && e.thumbnail != "" && e.description != ""
  }

  predicate ValidBlockchainVote(b: BlockchainVote) {
    b.transactionHash != "" && b.voterHash != ""
  }

  predicate ValidVoter(v: Voter) {
    && v.fullName != "" && v.email != "" && v.password != ""
    && forall k :: 0 <= k < |v.blockchainVotes| ==> ValidBlockchainVote(v.blockchainVotes[k])
  }

  /** Creating a candidate: the required fields must be present, the vote
      count starts at 0 and the ledger transaction list empty. */
  function NewCandidate(fullName: string, motto: string, image: string, election: Option<Id>): (r: Result<Candidate>)
    ensures r.Ok? <==> fullName != "" && motto != "" && image != "" && election.Some?
    ensures r.Err? ==> r.error == ValidationFailed
    ensures r.Ok? ==> ValidCandidate(r.value)
    ensures r.Ok? ==> r.value == Candidate(fullName, image, 0, motto, election.value, [])
  {
    if election.None? then Err(ValidationFailed)
    else
      var c := Candidate(fullName, image, 0, motto, election.value, []);
      if ValidCandidate(c) then Ok(c) else Err(ValidationFailed)
  }

  /** Creating an election: the required fields must be present; both id
      lists start empty, the ledger counter at 0, the ledger flag on and
      no sync time recorded. */
  function NewElection(title: string, description: string, thumbnail: string): (r: Result<Election>)
    ensures r.Ok? <==> title != "" && description != "" && thumbnail != ""
    ensures r.Err? ==> r.error == ValidationFailed
    ensures r.Ok? ==> ValidElection(r.value)
    ensures r.Ok? ==> r.value.title == title && r.value.description == description && r.value.thumbnail == thumbnail
    ensures r.Ok? ==> r.value.candidates == [] && r.value.voters == []
    ensures r.Ok? ==> r.value.totalBlockchainTxs == 0 && r.value.blockchainEnabled && r.value.lastBlockchainSync.None?
  {
    var e := Election(title, thumbnail, description, [], [], 0, None, true);
    if ValidElection(e) then Ok(e) else Err(ValidationFailed)
  }

  /** Creating a voter: the required fields must be present; an omitted
      admin flag means "not admin"; both histories start empty. */
  function NewVoter(fullName: string, email: string, password: string, isAdmin: Option<bool>): (r: Result<Voter>)
    ensures r.Ok? <==> fullName != "" && email != "" && password != ""
    ensures r.Err? ==> r.error == ValidationFailed
    ensures r.Ok? ==> ValidVoter(r.value)
    ensures r.Ok? ==> r.value.fullName == fullName && r.value.email == email && r.value.password == password
    ensures r.Ok? ==> (r.value.isAdmin <==> isAdmin == Some(true))
    ensures r.Ok? ==> r.value.votedElections == [] && r.value.blockchainVotes == []
  {
    var admin := match isAdmin case Some(b) => b case None => false;
    var v := Voter(fullName, email, password, [], admin, []);
    if ValidVoter(v) then Ok(v) else Err(ValidationFailed)
  }

  /** Creating a ledger vote entry: ids, transaction hash and voter hash
      are required; block number and gas are optional. */
  function NewBlockchainVote(electionId: Option<Id>, candidateId: Option<Id>, transactionHash: string,
                             blockNumber: Option<int>, voterHash: string, gasUsed: Option<int>): (r: Result<BlockchainVote>)
    ensures r.Ok? <==> electionId.Some? && candidateId.Some? && transactionHash != "" && voterHash != ""
    ensures r.Err? ==> r.error == ValidationFailed
    ensures r.Ok? ==> ValidBlockchainVote(r.value)
    ensures r.Ok? ==>
              r.value == BlockchainVote(electionId.value, candidateId.value, transactionHash, blockNumber, voterHash, gasUsed)
  {
    if electionId.None? || candidateId.None? then Err(ValidationFailed)
    else
      var b := BlockchainVote(electionId.value, candidateId.value, transactionHash, blockNumber, voterHash, gasUsed);
      if ValidBlockchainVote(b) then Ok(b) else Err(ValidationFailed)
  }

  // ---------------------------------------------------------------- store

  /** The database: one map per collection. */
  datatype Store = Store(
    elections: map<Id, Election>,
    candidates: map<Id, Candidate>,
    voters: map<Id, Voter>)

  /** A handler's effect: its answer and the store afterwards. */
  datatype Step<+T> = Step(reply: Result<T>, store: Store)

  /** Every stored record satisfies its schema. */
  predicate SchemaValid(s: Store) {
    && (forall c :: c in s.candidates ==> ValidCandidate(s.candidates[c]))
    && (forall e :: e in s.elections ==> ValidElection(s.elections[e]))
    && (forall v :: v in s.voters ==> ValidVoter(s.voters[v]))
  }

  /** No candidate has a negative vote count. */
  predicate CountsNonNegative(s: Store) {
    forall c :: c in s.candidates ==> s.candidates[c].voteCount >= 0
  }

  /** Every candidate still present after a step has at least the votes it
      had before. */
  predicate CountsNotDecreased(s: Store, t: Store) {
    forall c :: c in s.candidates && c in t.candidates ==>
      s.candidates[c].voteCount <= t.candidates[c].voteCount
  }

  /** The list with every occurrence of `x` pulled out, the rest kept in order. */
  function Without(xs: seq<Id>, x: Id): (r: seq<Id>)
    ensures x !in r
    ensures |r| <= |xs|
    ensures forall y :: y != x ==> multiset(r)[y] == multiset(xs)[y]
    decreases |xs|
  {
    if xs == [] then []
    else
      assert xs == [xs[0]] + xs[1..];
      if xs[0] == x then Without(xs[1..], x)
      else [xs[0]] + Without(xs[1..], x)
  }

  /** Pulling from a one-element list keeps the element exactly when it is
      not the id pulled. */
  lemma WithoutSingle(y: Id, x: Id)
    ensures Without([y], x) == if y == x then [] else [y]
  {
    assert [y][1..] == [];
  }

  /** Pulling distributes over concatenation, so the ids that remain keep
      their relative order. */
  lemma {:induction false} WithoutAppend(a: seq<Id>, b: seq<Id>, x: Id)
    ensures Without(a + b, x) == Without(a, x) + Without(b, x)
    decreases |a|
  {
    if a == [] {
      assert a + b == b;
    } else {
      assert (a + b)[0] == a[0] && (a + b)[1..] == a[1..] + b;
      WithoutAppend(a[1..], b, x);
    }
  }

  /** Pulling an id that is not in the list changes nothing. */
  lemma {:induction false} WithoutAbsent(xs: seq<Id>, x: Id)
    requires x !in xs
    ensures Without(xs, x) == xs
    decreases |xs|
  {
    if xs != [] {
      WithoutAbsent(xs[1..], x);
      assert [xs[0]] + xs[1..] == xs;
    }
  }
}

=== FILE: outcomes.dfy ===
/** Optional values, error kinds and results shared by every handler.
    The handlers answer either with a value or with an error; HTTP status
    codes and message texts are not modelled, only the kind of failure. */
module Outcomes {

  /** An optional value: a request field or file that may be absent. */
  datatype Option<+T> = None | Some(value: T)

  /** Why a handler refused or failed. */
  datatype Error =
    | Forbidden            // the caller is not an admin
    | MissingFields        // a required form field is absent or empty
    | MissingFile          // no image/thumbnail file was attached
    | FileTooLarge         // the attached file exceeds the size limit
    | UploadFailed         // the image host returned no usable URL
    | NotFound             // a looked-up record does not exist
    | ValidationFailed     // the document schema rejected a record on save
    | DuplicateKey         // the store already holds a record with the new id
    | EmailTaken           // registration with an email already in use
    | PasswordTooShort     // registration with a password shorter than 6
    | PasswordMismatch     // registration with two different passwords
    | InvalidCredentials   // login with an unknown email or a wrong password
    | NoReply              // the handler returned without answering or writing
    | Thrown               // reading a file of a request without files threw; the catch answered

  /** A request field passes the handlers' presence test (`!field` is
      false): it was sent and is not the empty string. */
  predicate Filled(f: Option<string>) {
    f.Some? && f.value != ""
  }

  /** The answer of a handler: a value or an error kind. */
  datatype Result<+T> = Ok(value: T) | Err(error: Error)
}

=== FILE: text.dfy ===
/** String helpers the handlers rely on: lower-casing emails, trimming
    passwords and splitting file names on a separator. */
module Text {

  // ---------------------------------------------------------------- case

  predicate IsUpper(c: char) { 'A' <= c <= 'Z' }

  /** Lower-cases one ASCII letter; every other character is kept. */
  function LowerChar(c: char): (d: char)
    ensures !IsUpper(d)
    ensures IsUpper(c) ==> d as int == c as int + 32
    ensures !IsUpper(c) ==> d == c
  {
    if IsUpper(c) then (c as int + 32) as char else c
  }

  /** The string lower-cased character by character. */
  function ToLower(s: string): (r: string)
    ensures |r| == |s|
    ensures forall i :: 0 <= i < |s| ==> r[i] == LowerChar(s[i])
  {
    seq(|s|, i requires 0 <= i < |s| => LowerChar(s[i]))
  }

  /** No upper-case ASCII letter occurs in `s`. */
  predicate IsLowerCase(s: string) {
    forall i :: 0 <= i < |s| ==> !IsUpper(s[i])
  }

  /** Two characters are the same letter in possibly different case. */
  predicate SameLetter(a: char, b: char) {
    a == b || (IsUpper(a) && b as int == a as int + 32) || (IsUpper(b) && a as int == b as int + 32)
  }

  /** Two strings that differ at most in the case of ASCII letters. */
  predicate SameUpToCase(a: string, b: string) {
    |a| == |b| && forall i :: 0 <= i < |a| ==> SameLetter(a[i], b[i])
  }

  lemma ToLowerIsLowerCase(s: string)
    ensures IsLowerCase(ToLower(s))
  {
  }

  /** Lower-casing twice is lower-casing once. */
  lemma ToLowerIdempotent(s: string)
    ensures ToLower(ToLower(s)) == ToLower(s)
  {
    var l := ToLower(s);
    assert forall i :: 0 <= i < |l| ==> LowerChar(l[i]) == l[i];
  }

  /** A lower-case string is its own lower-casing. */
  lemma LowerCaseFixed(s: string)
    requires IsLowerCase(s)
    ensures ToLower(s) == s
  {
  }

  lemma LowerCharEqual(a: char, b: char)
    ensures LowerChar(a) == LowerChar(b) <==> SameLetter(a, b)
  {
  }

  /** Two strings lower-case to the same string exactly when they differ
      only in the case of their letters. */
  lemma ToLowerEqualIff(a: string, b: string)
    ensures ToLower(a) == ToLower(b) <==> SameUpToCase(a, b)
  {
    if ToLower(a) == ToLower(b) {
      forall i | 0 <= i < |a|
        ensures SameLetter(a[i], b[i])
      {
        assert ToLower(a)[i] == ToLower(b)[i];
        LowerCharEqual(a[i], b[i]);
      }
    }
    if SameUpToCase(a, b) {
      forall i | 0 <= i < |a|
        ensures ToLower(a)[i] == ToLower(b)[i]
      {
        LowerCharEqual(a[i], b[i]);
      }
    }
  }

  // ---------------------------------------------------------------- trim

  /** The characters an ECMAScript `trim()` removes: the white-space and
      line-terminator characters of the language standard. */
  predicate IsWhitespace(c: char) {
    || c == ' ' || c == '\t' || c == '\n' || c == '\r'
    || c == '\U{B}' || c == '\U{C}' || c == '\U{A0}' || c == '\U{1680}'
    || ('\U{2000}' <= c <= '\U{200A}')
    || c == '\U{2028}' || c == '\U{2029}' || c == '\U{202F}'
    || c == '\U{205F}' || c == '\U{3000}' || c == '\U{FEFF}'
  }

  predicate AllWhitespace(s: string) {
    forall i :: 0 <= i < |s| ==> IsWhitespace(s[i])
  }

  /** `s` with its leading white space removed. */
  function TrimStart(s: string): (r: string)
    ensures |r| <= |s|
    ensures r == s[|s| - |r|..]
    ensures AllWhitespace(s[..|s| - |r|])
    ensures r == [] || !IsWhitespace(r[0])
    decreases |s|
  {
    if |s| > 0 && IsWhitespace(s[0]) then TrimStart(s[1..]) else s
  }

  /** `s` with its trailing white space removed. */
  function TrimEnd(s: string): (r: string)
    ensures |r| <= |s|
    ensures r == s[..|r|]
    ensures AllWhitespace(s[|r|..])
    ensures r == [] || !IsWhitespace(r[|r| - 1])
    decreases |s|
  {
    if |s| > 0 && IsWhitespace(s[|s| - 1]) then TrimEnd(s[..|s| - 1]) else s
  }

  /** `s` with white space removed at both ends: a slice `s[i..i+|r|]`
      preceded and followed only by white space. */
  function Trim(s: string): (r: string)
    ensures |r| <= |s|
    ensures r == [] || (!IsWhitespace(r[0]) && !IsWhitespace(r[|r| - 1]))
    ensures exists i :: 0 <= i <= |s| - |r| && r == s[i..i + |r|]
                        && AllWhitespace(s[..i]) && AllWhitespace(s[i + |r|..])
  {
    var a := TrimStart(s);
    var r := TrimEnd(a);
    TrimWitness(s, a, r);
    r
  }

  lemma TrimWitness(s: string, a: string, r: string)
    requires |a| <= |s| && a == s[|s| - |a|..] && AllWhitespace(s[..|s| - |a|])
    requires |r| <= |a| && r == a[..|r|] && AllWhitespace(a[|r|..])
    ensures var i := |s| - |a|; r == s[i..i + |r|] && AllWhitespace(s[..i]) && AllWhitespace(s[i + |r|..])
  {
    var i := |s| - |a|;
    assert s[i + |r|..] == a[|r|..];
  }

  /** Trimming a string that has no white space at either end leaves it. */
  lemma TrimOfTrimmed(s: string)
    requires s == [] || (!IsWhitespace(s[0]) && !IsWhitespace(s[|s| - 1]))
    ensures Trim(s) == s
  {
  }

  /** Padding with white space on both sides does not change the trim. */
  lemma {:induction false} TrimPadded(pre: string, core: string, post: string)
    requires AllWhitespace(pre) && AllWhitespace(post)
    requires core != [] && !IsWhitespace(core[0]) && !IsWhitespace(core[|core| - 1])
    ensures Trim(pre + core + post) == core
  {
    assert pre + core + post == pre + (core + post);
    TrimStartPadded(pre, core + post);
    TrimEndPadded(core, post);
  }

  lemma {:induction false} TrimStartPadded(pre: string, rest: string)
    requires AllWhitespace(pre)
    requires rest == [] || !IsWhitespace(rest[0])
    ensures TrimStart(pre + rest) == rest
    decreases |pre|
  {
    if pre != [] {
      assert (pre + rest)[1..] == pre[1..] + rest;
      TrimStartPadded(pre[1..], rest);
    }
  }

  lemma {:induction false} TrimEndPadded(rest: string, post: string)
    requires AllWhitespace(post)
    requires rest == [] || !IsWhitespace(rest[|rest| - 1])
    ensures TrimEnd(rest + post) == rest
    decreases |post|
  {
    if post != [] {
      var p := post[..|post| - 1];
      assert (rest + post)[..|rest + post| - 1] == rest + p;
      TrimEndPadded(rest, p);
    }
  }

  // ---------------------------------------------------------------- length

  /** A character outside the Basic Multilingual Plane: UTF-16 stores it as
      a surrogate pair, two code units. */
  predicate IsAstral(c: char) { c as int >= 0x1_0000 }

  /** The number of UTF-16 code units of `s`, which is what an ECMAScript
      string's `length` counts. */
  function Utf16Length(s: string): (n: nat)
    ensures |s| <= n <= 2 * |s|
    decreases |s|
  {
    if s == [] then 0 else (if IsAstral(s[0]) then 2 else 1) + Utf16Length(s[1..])
  }

  /** The code-unit length equals the character count exactly when no
      character lies outside the Basic Multilingual Plane. */
  lemma {:induction false} Utf16LengthBmp(s: string)
    ensures Utf16Length(s) == |s| <==> forall i :: 0 <= i < |s| ==> !IsAstral(s[i])
    decreases |s|
  {
    if s != [] {
      Utf16LengthBmp(s[1..]);
      assert forall i :: 1 <= i < |s| ==> s[i] == s[1..][i - 1];
    }
  }

  /** The code-unit length of a concatenation is the sum of the parts'. */
  lemma {:induction false} Utf16LengthAppend(a: string, b: string)
    ensures Utf16Length(a + b) == Utf16Length(a) + Utf16Length(b)
    decreases |a|
  {
    if a == [] {
      assert a + b == b;
    } else {
      assert (a + b)[0] == a[0] && (a + b)[1..] == a[1..] + b;
      Utf16LengthAppend(a[1..], b);
    }
  }

  /** Trimming never adds code units. */
  lemma TrimUtf16Shorter(s: string)
    ensures Utf16Length(Trim(s)) <= Utf16Length(s)
  {
    var a := TrimStart(s);
    var r := TrimEnd(a);
    assert Trim(s) == r;
    assert a == s[|s| - |a|..|s|];
    assert r == a[0..|r|];
    SliceUtf16Shorter(s, |s| - |a|, |s|);
    SliceUtf16Shorter(a, 0, |r|);
  }

  /** A slice has no more code units than the whole. */
  lemma SliceUtf16Shorter(s: string, i: nat, j: nat)
    requires i <= j <= |s|
    ensures Utf16Length(s[i..j]) <= Utf16Length(s)
  {
    var a, m, b := s[..i], s[i..j], s[j..];
    assert s == a + m + b;
    Utf16LengthAppend(a + m, b);
    Utf16LengthAppend(a, m);
  }

  /** Three characters outside the Basic Multilingual Plane are six code
      units long. */
  lemma AstralLength()
    ensures |"\U{1F600}\U{1F600}\U{1F600}"| == 3
    ensures Utf16Length("\U{1F600}\U{1F600}\U{1F600}") == 6
  {
    var s := "\U{1F600}\U{1F600}\U{1F600}";
    assert s[1..] == "\U{1F600}\U{1F600}" && s[1..][1..] == "\U{1F600}";
  }

  // ---------------------------------------------------------------- split

  /** The pieces of `s` between occurrences of `sep`, as ECMAScript
      `s.split(sep)` returns them for a one-character separator: never empty,
      and an empty string splits into one empty piece. */
  function Split(s: string, sep: char): (parts: seq<string>)
    ensures |parts| >= 1
    ensures forall k :: 0 <= k < |parts| ==> sep !in parts[k]
    decreases |s|
  {
    if |s| == 0 then [""]
    else if s[0] == sep then [""] + Split(s[1..], sep)
    else
      var rest := Split(s[1..], sep);
      [[s[0]] + rest[0]] + rest[1..]
  }

  /** The pieces glued back together with the separator between them. */
  function Join(parts: seq<string>, sep: char): string
    requires |parts| >= 1
    decreases |parts|
  {
    if |parts| == 1 then parts[0] else parts[0] + [sep] + Join(parts[1..], sep)
  }

  /** Splitting and joining again gives back the original string. */
  lemma {:induction false} JoinSplit(s: string, sep: char)
    ensures Join(Split(s, sep), sep) == s
    decreases |s|
  {
    if |s| == 0 {
    } else if s[0] == sep {
      JoinSplit(s[1..], sep);
      assert Split(s, sep)[1..] == Split(s[1..], sep);
    } else {
      var rest := Split(s[1..], sep);
      JoinSplit(s[1..], sep);
      var parts := Split(s, sep);
      if |rest| == 1 {
      } else {
        assert parts[1..] == rest[1..];
        assert Join(rest, sep) == rest[0] + [sep] + Join(rest[1..], sep);
      }
    }
  }

  /** A string without the separator is a single piece. */
  lemma {:induction false} SplitNoSeparator(s: string, sep: char)
    requires sep !in s
    ensures Split(s, sep) == [s]
    decreases |s|
  {
    if |s| > 0 {
      assert sep !in s[1..];
      SplitNoSeparator(s[1..], sep);
      assert [s[0]] + s[1..] == s;
    }
  }

  /** `p` is the text before the first separator (all of `s` if none). */
  predicate IsFirstSegment(s: string, p: string, sep: char) {
    |p| <= |s| && p == s[..|p|] && sep !in p && (|p| == |s| || s[|p|] == sep)
  }

  /** `q` is the text after the last separator (all of `s` if none). */
  predicate IsLastSegment(s: string, q: string, sep: char) {
    |q| <= |s| && q == s[|s| - |q|..] && sep !in q && (|q| == |s| || s[|s| - |q| - 1] == sep)
  }

  lemma {:induction false} JoinFirst(parts: seq<string>, sep: char)
    requires |parts| >= 1
    requires forall k :: 0 <= k < |parts| ==> sep !in parts[k]
    ensures IsFirstSegment(Join(parts, sep), parts[0], sep)
  {
  }

  lemma {:induction false} JoinLast(parts: seq<string>, sep: char)
    requires |parts| >= 1
    requires forall k :: 0 <= k < |parts| ==> sep !in parts[k]
    ensures IsLastSegment(Join(parts, sep), parts[|parts| - 1], sep)
    decreases |parts|
  {
    if |parts| > 1 {
      JoinLast(parts[1..], sep);
      var tail := Join(parts[1..], sep);
      var j := Join(parts, sep);
      assert j == parts[0] + [sep] + tail;
      var q := parts[|parts| - 1];
      assert q == parts[1..][|parts[1..]| - 1];
      assert j[|j| - |tail|..] == tail;
      if |q| == |tail| {
        assert j[|j| - |q| - 1] == sep;
      }
    }
  }

  /** The first piece of a split is the text before the first separator. */
  lemma SplitFirstSegment(s: string, sep: char)
    ensures IsFirstSegment(s, Split(s, sep)[0], sep)
  {
    JoinSplit(s, sep);
    JoinFirst(Split(s, sep), sep);
  }

  /** The last piece of a split is the text after the last separator. */
  lemma SplitLastSegment(s: string, sep: char)
    ensures IsLastSegment(s, Split(s, sep)[|Split(s, sep)| - 1], sep)
  {
    JoinSplit(s, sep);
    JoinLast(Split(s, sep), sep);
  }
}

=== FILE: uploads.dfy ===
/** Uploaded image files: the size limit every handler applies, and the
    name under which a file is stored before it is sent to the image host.
    Moving the file and the hosting service itself are external; the host
    is a function parameter from stored file name to an optional URL. */
module Uploads {
  import opened Outcomes
  import opened Text

  /** An uploaded file as the request carries it. */
  datatype Upload = Upload(name: string, size: nat)

  /** Largest accepted file size in bytes; the check is `size > limit`. */
  const MaxUploadSize: nat := 1000000

  /** What the image host answers for a stored file: a secure URL, if any. */
  type ImageHost = string -> Option<string>

  /** The upload counts as successful only when the URL is present and not
      empty (the handlers test the URL for JavaScript falsiness). */
  predicate Hosted(url: Option<string>) {
    url.Some? && url.value != ""
  }

  predicate FitsLimit(f: Upload) {
    f.size <= MaxUploadSize
  }

  /** The stored file name: the text before the first `.`, then the fresh
      uuid, then `.`, then the text after the last `.`. Middle pieces are
      dropped; a name without `.` is used on both sides. */
  function UploadName(name: string, uuid: string): (r: string)
    ensures exists p, q {:trigger IsFirstSegment(name, p, '.'), IsLastSegment(name, q, '.')} ::
              IsFirstSegment(name, p, '.') && IsLastSegment(name, q, '.') && r == p + uuid + "." + q
    ensures |r| <= 2 * |name| + |uuid| + 1
  {
    var parts := Split(name, '.');
    SplitFirstSegment(name, '.');
    SplitLastSegment(name, '.');
    parts[0] + uuid + "." + parts[|parts| - 1]
  }

  /** Only one text can be the first segment of a name. */
  lemma FirstSegmentUnique(s: string, p: string, p': string, sep: char)
    requires IsFirstSegment(s, p, sep) && IsFirstSegment(s, p', sep)
    ensures p == p'
  {
  }

  /** Only one text can be the last segment of a name. */
  lemma LastSegmentUnique(s: string, q: string, q': string, sep: char)
    requires IsLastSegment(s, q, sep) && IsLastSegment(s, q', sep)
    ensures q == q'
  {
  }

  /** A name without `.` gives name ++ uuid ++ "." ++ name. */
  lemma UploadNameWithoutDot(name: string, uuid: string)
    requires '.' !in name
    ensures UploadName(name, uuid) == name + uuid + "." + name
  {
    SplitNoSeparator(name, '.');
  }

  /** With several dots the middle pieces vanish: "a.b.c" gives a ++ uuid ++ ".c". */
  lemma UploadNameDropsMiddle(uuid: string)
    ensures UploadName("a.b.c", uuid) == "a" + uuid + ".c"
  {
    var s := "a.b.c";
    var r := UploadName(s, uuid);
    var p, q :| IsFirstSegment(s, p, '.') && IsLastSegment(s, q, '.') && r == p + uuid + "." + q;
    assert IsFirstSegment(s, "a", '.');
    assert IsLastSegment(s, "c", '.');
    FirstSegmentUnique(s, p, "a", '.');
    LastSegmentUnique(s, q, "c", '.');
  }

  /** A name "x.y" with dot-free parts is stored as x ++ uuid ++ "." ++ y. */
  lemma UploadNameSingleDot(x: string, y: string, uuid: string)
    requires '.' !in x && '.' !in y
    ensures UploadName(x + "." + y, uuid) == x + uuid + "." + y
  {
    var s := x + "." + y;
    var r := UploadName(s, uuid);
    var p, q :| IsFirstSegment(s, p, '.') && IsLastSegment(s, q, '.') && r == p + uuid + "." + q;
    assert IsFirstSegment(s, x, '.') by { assert s[..|x|] == x; }
    assert IsLastSegment(s, y, '.') by { assert s[|s| - |y|..] == y; }
    FirstSegmentUnique(s, p, x, '.');
    LastSegmentUnique(s, q, y, '.');
  }
}

=== FILE: voters.dfy ===
/** The voter handlers: registration with its field checks and admin rule,
    login by email and password, and reading a voter without its password.
    Password hashing and comparison are parameters standing for the
    external hashing library; token issuing is not modelled. */
module Voters {
  import opened Outcomes
  import opened Text
  import opened Models
  import Candidates

  /** The one email whose owner registers as an admin. */
  const AdminEmail: string := "admin@gmail.com"

  /** Shortest accepted password, counted in UTF-16 code units after
      trimming, as an ECMAScript string's `length` counts. */
  const MinPasswordLength: nat := 6

  /** The password hashing service, its random salt folded in. */
  type Hasher = string -> string

  /** The password check of login: plain text against a stored hash. */
  type PasswordCheck = (string, string) -> bool

  /** The body of a registration request. */
  datatype RegisterForm = RegisterForm(
    fullName: Option<string>,
    email: Option<string>,
    password: Option<string>,
    password2: Option<string>)

  /** What a registration that passed every check will store: the email
      lower-cased, the password still in plain text and untrimmed. */
  datatype Registration = Registration(fullName: string, email: string, password: string, isAdmin: bool)

  predicate AllFilled(f: RegisterForm) {
    Filled(f.fullName) && Filled(f.email) && Filled(f.password) && Filled(f.password2)
  }

  /** Some stored voter has exactly this email. */
  predicate EmailInUse(s: Store, email: string) {
    exists id :: id in s.voters && s.voters[id].email == email
  }

  // ---------------------------------------------------------------- register

  /** The registration checks, in the order the handler runs them: all four
      fields present, lower-cased email unused, trimmed password long enough,
      passwords equal. The admin flag is derived from the email. */
  function ValidateRegistration(s: Store, f: RegisterForm): (r: Result<Registration>)
    ensures !AllFilled(f) ==> r == Err(MissingFields)
    ensures AllFilled(f) && EmailInUse(s, ToLower(f.email.value)) ==> r == Err(EmailTaken)
    ensures (AllFilled(f) && !EmailInUse(s, ToLower(f.email.value)) && Utf16Length(Trim(f.password.value)) < MinPasswordLength)
              ==> r == Err(PasswordTooShort)
    ensures (AllFilled(f) && !EmailInUse(s, ToLower(f.email.value)) && Utf16Length(Trim(f.password.value)) >= MinPasswordLength
             && f.password.value != f.password2.value) ==> r == Err(PasswordMismatch)
    ensures r.Ok? <==>
              AllFilled(f) && !EmailInUse(s, ToLower(f.email.value))
              && Utf16Length(Trim(f.password.value)) >= MinPasswordLength && f.password.value == f.password2.value
    ensures r.Ok? ==>
              && r.value.fullName == f.fullName.value
              && r.value.email == ToLower(f.email.value) && IsLowerCase(r.value.email)
              && r.value.password == f.password.value
              && (r.value.isAdmin <==> ToLower(f.email.value) == AdminEmail)
  {
    if !AllFilled(f) then Err(MissingFields)
    else
      var email := ToLower(f.email.value);
      ToLowerIsLowerCase(f.email.value);
      if EmailInUse(s, email) then Err(EmailTaken)
      else if Utf16Length(Trim(f.password.value)) < MinPasswordLength then Err(PasswordTooShort)
      else if f.password.value != f.password2.value then Err(PasswordMismatch)
      else Ok(Registration(f.fullName.value, email, f.password.value, email == AdminEmail))
  }

  /** Stores the voter a passed registration describes, with the password
      replaced by its hash, under the new id. */
  function CreateVoter(s: Store, reg: Registration, hash: Hasher, newId: Id): (r: Step<Id>)
    ensures r.reply.Err? ==> r.store == s
    ensures r.reply.Ok? <==> reg.fullName != "" && reg.email != "" && hash(reg.password) != "" && newId !in s.voters
    ensures r.reply.Ok? ==>
              && r.reply.value == newId
              && r.store.elections == s.elections && r.store.candidates == s.candidates
              && r.store.voters.Keys == s.voters.Keys + {newId}
              && (forall id :: id in s.voters ==> r.store.voters[id] == s.voters[id])
              && r.store.voters[newId] == Voter(reg.fullName, reg.email, hash(reg.password), [], reg.isAdmin, [])
  {
    match NewVoter(reg.fullName, reg.email, hash(reg.password), Some(reg.isAdmin))
    case Err(err) => Step(Err(err), s)
    case Ok(v) =>
      if newId in s.voters then Step(Err(DuplicateKey), s)
      else Step(Ok(newId), s.(voters := s.voters[newId := v]))
  }

  /** Registers a voter: validates, hashes the untrimmed password and
      creates the voter under the new id. Every failure writes nothing. */
  function RegisterVoter(s: Store, f: RegisterForm, hash: Hasher, newId: Id): (r: Step<Id>)
    ensures r.reply.Err? ==> r.store == s
    ensures !AllFilled(f) ==> r.reply == Err(MissingFields)
    ensures AllFilled(f) && EmailInUse(s, ToLower(f.email.value)) ==> r.reply == Err(EmailTaken)
    ensures r.reply.Ok? ==>
              && AllFilled(f) && !EmailInUse(s, ToLower(f.email.value))
              && Utf16Length(Trim(f.password.value)) >= MinPasswordLength && f.password.value == f.password2.value
              && newId !in s.voters && r.reply.value == newId
              && r.store.elections == s.elections && r.store.candidates == s.candidates
              && r.store.voters.Keys == s.voters.Keys + {newId}
              && (forall id :: id in s.voters ==> r.store.voters[id] == s.voters[id])
              && r.store.voters[newId] == Voter(f.fullName.value, ToLower(f.email.value), hash(f.password.value), [],
                                                ToLower(f.email.value) == AdminEmail, [])
  {
    match ValidateRegistration(s, f)
    case Err(err) => Step(Err(err), s)
    case Ok(reg) => CreateVoter(s, reg, hash, newId)
  }

  /** A registration that passes every check, with a non-empty hash and an
      unused id, succeeds. */
  lemma RegisterVoterSucceeds(s: Store, f: RegisterForm, hash: Hasher, newId: Id)
    requires ValidateRegistration(s, f).Ok? && hash(f.password.value) != "" && newId !in s.voters
    ensures RegisterVoter(s, f, hash, newId).reply == Ok(newId)
  {
  }

  /** An email differing from a stored lower-case email only in letter case
      is refused as taken. */
  lemma CaseVariantEmailTaken(s: Store, f: RegisterForm, id: Id)
    requires AllFilled(f)
    requires id in s.voters && IsLowerCase(s.voters[id].email)
    requires SameUpToCase(f.email.value, s.voters[id].email)
    ensures ValidateRegistration(s, f) == Err(EmailTaken)
  {
    ToLowerEqualIff(f.email.value, s.voters[id].email);
    LowerCaseFixed(s.voters[id].email);
  }

  /** Surrounding white space does not count towards the length: "  abc  "
      is too short even though it has seven characters. */
  lemma PaddedPasswordTooShort(s: Store, f: RegisterForm)
    requires AllFilled(f) && !EmailInUse(s, ToLower(f.email.value))
    requires f.password.value == "  abc  "
    ensures ValidateRegistration(s, f) == Err(PasswordTooShort)
  {
    assert f.password.value == "  " + "abc" + "  ";
    TrimPadded("  ", "abc", "  ");
  }

  /** The length is counted in UTF-16 code units: three characters outside
      the Basic Multilingual Plane make six units, which is long enough. */
  lemma AstralPasswordAccepted(s: Store, f: RegisterForm)
    requires AllFilled(f) && !EmailInUse(s, ToLower(f.email.value))
    requires f.password.value == "\U{1F600}\U{1F600}\U{1F600}" && f.password2.value == f.password.value
    ensures ValidateRegistration(s, f).Ok?
  {
    TrimOfTrimmed(f.password.value);
    AstralLength();
  }

  /** The length check comes before the match check: a short password that
      also differs from its repetition reports the length. */
  lemma ShortBeforeMismatch(s: Store, f: RegisterForm)
    requires AllFilled(f) && !EmailInUse(s, ToLower(f.email.value))
    requires Utf16Length(f.password.value) < MinPasswordLength && f.password.value != f.password2.value
    ensures ValidateRegistration(s, f) == Err(PasswordTooShort)
  {
    TrimUtf16Shorter(f.password.value);
  }

  // ---------------------------------------------------------------- accounts

  /** Every stored email is lower-case. */
  predicate EmailsLowerCase(s: Store) {
    forall id :: id in s.voters ==> IsLowerCase(s.voters[id].email)
  }

  /** No two voters share an email. */
  predicate EmailsUnique(s: Store) {
    forall a, b :: a in s.voters && b in s.voters && a != b ==> s.voters[a].email != s.voters[b].email
  }

  /** A voter is admin exactly when its email is the admin email. */
  predicate AdminRule(s: Store) {
    forall id :: id in s.voters ==> (s.voters[id].isAdmin <==> s.voters[id].email == AdminEmail)
  }

  /** What registration through this handler guarantees of the accounts. */
  predicate AccountsConsistent(s: Store) {
    EmailsLowerCase(s) && EmailsUnique(s) && AdminRule(s)
  }

  /** Adding one voter whose email is lower-case and unused, and whose
      admin flag follows the admin rule, keeps the account invariant. */
  lemma InsertKeepsAccounts(s: Store, t: Store, newId: Id)
    requires AccountsConsistent(s)
    requires newId !in s.voters && t.voters.Keys == s.voters.Keys + {newId}
    requires forall id :: id in s.voters ==> t.voters[id] == s.voters[id]
    requires IsLowerCase(t.voters[newId].email)
    requires t.voters[newId].isAdmin <==> t.voters[newId].email == AdminEmail
    requires forall id :: id in s.voters ==> s.voters[id].email != t.voters[newId].email
    ensures AccountsConsistent(t)
  {
    forall a, b | a in t.voters && b in t.voters && a != b
      ensures t.voters[a].email != t.voters[b].email
    {
      if a != newId && b != newId {
        assert t.voters[a] == s.voters[a] && t.voters[b] == s.voters[b];
      }
    }
  }

  /** Registering keeps emails lower-case and unique and the admin rule. */
  lemma RegisterKeepsAccounts(s: Store, f: RegisterForm, hash: Hasher, newId: Id)
    requires AccountsConsistent(s)
    ensures AccountsConsistent(RegisterVoter(s, f, hash, newId).store)
  {
    var r := RegisterVoter(s, f, hash, newId);
    if r.reply.Ok? {
      var email := ToLower(f.email.value);
      ToLowerIsLowerCase(f.email.value);
      assert !EmailInUse(s, email);
      InsertKeepsAccounts(s, r.store, newId);
    }
  }

  /** Voting changes no email, password or admin flag. */
  lemma VoteKeepsAccounts(s: Store, candidateId: Id, voterId: Id, electionId: Id)
    requires AccountsConsistent(s)
    ensures var t := Candidates.VoteCandidate(s, candidateId, voterId, electionId).store;
            && t.voters.Keys == s.voters.Keys
            && (forall id :: id in t.voters ==>
                  t.voters[id].email == s.voters[id].email && t.voters[id].password == s.voters[id].password
                  && t.voters[id].isAdmin == s.voters[id].isAdmin)
            && AccountsConsistent(t)
  {
  }

  /** Under the account invariant there is at most one admin. */
  lemma AtMostOneAdmin(s: Store, a: Id, b: Id)
    requires AccountsConsistent(s)
    requires a in s.voters && b in s.voters && s.voters[a].isAdmin && s.voters[b].isAdmin
    ensures a == b
  {
  }

  /** Under the account invariant no two voters' emails differ only in case. */
  lemma NoCaseVariantAccounts(s: Store, a: Id, b: Id)
    requires AccountsConsistent(s)
    requires a in s.voters && b in s.voters && a != b
    ensures !SameUpToCase(s.voters[a].email, s.voters[b].email)
  {
    ToLowerEqualIff(s.voters[a].email, s.voters[b].email);
    LowerCaseFixed(s.voters[a].email);
    LowerCaseFixed(s.voters[b].email);
  }

  // ---------------------------------------------------------------- login

  /** What a successful login returns besides the token. */
  datatype Session = Session(id: Id, votedElections: seq<Id>, isAdmin: bool)

  /** Logs a voter in: both fields present, a voter with the lower-cased
      email found, and the password matching its stored hash. When several
      voters share the email, any one of them may be the one found. */
  method LoginVoter(s: Store, email: Option<string>, password: Option<string>, compare: PasswordCheck)
    returns (r: Result<Session>)
    ensures !(Filled(email) && Filled(password)) ==> r == Err(MissingFields)
    ensures r.Err? ==> r.error == MissingFields || r.error == InvalidCredentials
    ensures (Filled(email) && Filled(password) && !EmailInUse(s, ToLower(email.value))) ==> r == Err(InvalidCredentials)
    ensures r.Ok? ==>
              && Filled(email) && Filled(password)
              && r.value.id in s.voters
              && s.voters[r.value.id].email == ToLower(email.value)
              && compare(password.value, s.voters[r.value.id].password)
              && r.value.votedElections == s.voters[r.value.id].votedElections
              && r.value.isAdmin == s.voters[r.value.id].isAdmin
    ensures (EmailsUnique(s) && Filled(email) && Filled(password)
             && (exists id :: id in s.voters && s.voters[id].email == ToLower(email.value)
                              && compare(password.value, s.voters[id].password))) ==> r.Ok?
  {
    if !Filled(email) || !Filled(password) {
      return Err(MissingFields);
    }
    var wanted := ToLower(email.value);
    var remaining := s.voters.Keys;
    var found: Option<Id> := None;
    while remaining != {} && found.None?
      invariant remaining <= s.voters.Keys
      invariant found.Some? ==> found.value in s.voters && s.voters[found.value].email == wanted
      invariant found.None? ==> forall id :: id in s.voters && id !in remaining ==> s.voters[id].email != wanted
      decreases |remaining|
    {
      var id :| id in remaining;
      if s.voters[id].email == wanted {
        found := Some(id);
      }
      remaining := remaining - {id};
    }
    if found.None? {
      return Err(InvalidCredentials);
    }
    var v := s.voters[found.value];
    if !compare(password.value, v.password) {
      return Err(InvalidCredentials);
    }
    return Ok(Session(found.value, v.votedElections, v.isAdmin));
  }

  // ---------------------------------------------------------------- read

  /** A voter as the read handler returns it: every field but the password. */
  datatype VoterView = VoterView(
    fullName: string,
    email: string,
    votedElections: seq<Id>,
    isAdmin: bool,
    blockchainVotes: seq<BlockchainVote>)

  /** The view with a password put back, giving a whole voter record. */
  function WithPassword(w: VoterView, password: string): Voter {
    Voter(w.fullName, w.email, password, w.votedElections, w.isAdmin, w.blockchainVotes)
  }

  /** Reads one voter, leaving out the password. */
  function GetVoter(s: Store, id: Id): (r: Option<VoterView>)
    ensures r.Some? <==> id in s.voters
    ensures r.Some? ==> WithPassword(r.value, s.voters[id].password) == s.voters[id]
  {
    if id !in s.voters then None
    else
      var v := s.voters[id];
      Some(VoterView(v.fullName, v.email, v.votedElections, v.isAdmin, v.blockchainVotes))
  }

  /** The read result does not depend on the stored password. */
  lemma GetVoterHidesPassword(s: Store, id: Id, other: string)
    requires id in s.voters
    ensures GetVoter(s.(voters := s.voters[id := s.voters[id].(password := other)]), id) == GetVoter(s, id)
  {
  }
}
